=== FILE: README.md ===
# Whistling Walrus recorder — a Dafny model of the recording session

The recorder component records a voice clip from the microphone. It stores the
clip on the Walrus publisher, keeps a newest-first list of saved recordings,
and opens a recording again from a share link `<origin>/#<blobId>`. This
project models the component's logic as pure functions over one immutable
session record. It proves what the component guarantees about its state.

The component reads several outcomes from the browser and the network:
microphone access, the publisher's status and JSON answer, the aggregator's
status and body, the measured duration, and whether autoplay was allowed.
It also reads the clock for a saved record's name and timestamp.
Each of these is a parameter. State updates are applied at once, in program
order.

Modules:

- `Decimal` (decimal.dfy): integer `toString()`, `padStart(2, '0')`, and a digit parser used to state round trips.
- `Clock` (clock.dfy): `formatTime`, the `MM:SS` parser that reads it back, and the capped per-second tick.
- `Storage` (storage.dfy): the shape of the publisher's answer, blob-id resolution, the `storeBlob` status check, fetch outcomes, and the MIME type given to a fetched blob.
- `Links` (links.dfy): share URLs, the page hash, and the start-up choice between the `recording` query parameter and the hash.
- `Recordings` (recordings.dfy): the `Recording` record, plus find, prepend and delete over the list.
- `Session` (session.dfy): the session record and one transition per action.
- `SessionProperties` (properties.dfy): properties that span several transitions.

The model follows the code:

- Only HTTP status 200 counts as a successful store. A fetch succeeds on any `response.ok` status (200–299).
- Record ids are not unique. A re-upload of content the publisher already holds adds a second record with the same id.
- The stored blob is the raw recording. The code has no metadata-line framing.

## Model

| member | source | states |
|---|---|---|
| Clock.FormatTime | src/react-audio-recorder.jsx:656-665 | Absent, NaN or infinite input shows `00:00`. A natural `n` shows text that `ParseClock` reads back as `n`. Below 6000 seconds that text is exactly five characters `MM:SS`, and from 6000 on the minutes carry no leading zero. A negative `n` shows a leading minus. |
| Clock.ParseClockText | src/react-audio-recorder.jsx:661-663 | Natural minutes and seconds below 60 are each shown with at least two digits and joined by a colon. The text parses back to minutes*60+seconds. |
| Clock.JsRemainder60 | src/react-audio-recorder.jsx:662 | JavaScript's `%` by 60: the result differs from `n` by a multiple of 60, lies in 0..59 for non-negative input and in -59..0 for negative input. |
| Decimal.NatToDecimal | src/react-audio-recorder.jsx:663 | `toString()` of a natural is the shortest digit run: it never starts with `0` unless the number is below 10. It has one character exactly below 10, at most two below 100, and parses back to the number. |
| Decimal.IntToDecimal | src/react-audio-recorder.jsx:663 | A whole number's text starts with `-` exactly when the number is negative. The rest is the magnitude's digits. |
| Decimal.IntToDecimalInjective | src/react-audio-recorder.jsx:347 | Distinct whole numbers have distinct texts. |
| Decimal.PadStart2 | src/react-audio-recorder.jsx:663 | `padStart(2, '0')` yields at least two characters, leaves text of two or more unchanged, and keeps the value the digits denote. |
| Decimal.ParseIgnoresLeadingZero | src/react-audio-recorder.jsx:663 | A leading `0` does not change the value of a digit run, which is why zero padding is harmless. |
| Clock.InvalidShowsZero | src/react-audio-recorder.jsx:658-660 | The invalid-value text reads as zero seconds. |
| Clock.TickTime | src/react-audio-recorder.jsx:485-494 | A tick requests a stop exactly at or above 1800. Below the cap it counts one up, and at the cap it keeps the value. It never leaves the range 0..1800. |
| Session.Tick | src/react-audio-recorder.jsx:485-494 | Without a timer, nothing changes. Below the cap, one second is added and nothing else changes. At the cap the tick is exactly `stopRecording`: the stream is released and the chunks become the payload, with the time unchanged. The cap is never exceeded. |
| SessionProperties.TicksCapped | src/react-audio-recorder.jsx:485-494 | After k ticks the time is min(t+k, 1800). The recording still runs exactly while t+k <= 1800. Consistency holds throughout. |
| SessionProperties.RecordingTimeFromStart | src/react-audio-recorder.jsx:432-494 | From a granted start, k ticks show min(k, 1800) seconds. |
| Session.StartRecording | src/react-audio-recorder.jsx:432-500 | The previous take, share link and hash are cleared. Capture starts only when the microphone is granted. A denied microphone sets the microphone message and leaves the stream as it was; a stream whose recorder fails is held with the same message. Recording does not start in either case. The saved list, the open id, playback, the loading and upload flags and the store answer are kept. |
| Session.StartNewRecording | src/react-audio-recorder.jsx:1142-1151 | The open id, payload and link are cleared before starting. The message is empty exactly when the microphone was granted, and then recording runs with the recorder capturing, the timer running, the time at zero and no chunks. |
| Session.DataAvailable | src/react-audio-recorder.jsx:458-462 | Only non-empty chunks are kept. The captured bytes grow by exactly the chunk. |
| SessionProperties.FeedAppends | src/react-audio-recorder.jsx:458-462 | Delivering chunks one at a time appends their bytes to the captured bytes in arrival order. |
| SessionProperties.FeedKeepsRecorder | src/react-audio-recorder.jsx:458-462 | Delivering chunks leaves the recorder state as it was. |
| SessionProperties.CapturedFrom | src/react-audio-recorder.jsx:458-468 | From a capturing recorder with no chunks, the payload made on stop is exactly the delivered bytes, typed `audio/mp3`. |
| SessionProperties.CapturedPayload | src/react-audio-recorder.jsx:458-468 | After a granted start, the payload made on stop is exactly the delivered bytes in order, typed `audio/mp3`. |
| SessionProperties.RecordKeepsRecorder | src/react-audio-recorder.jsx:458-494 | Below the cap, chunks and timer seconds in any order keep the recorder capturing and the timer running. The time grows by exactly the number of timer seconds; chunks add none. |
| SessionProperties.RecordLast | src/react-audio-recorder.jsx:458-494 | Below the cap, one more event adds exactly its bytes to the captured bytes: a chunk its own bytes, a timer second none. |
| SessionProperties.RecordAppends | src/react-audio-recorder.jsx:458-494 | Below the cap, the captured bytes grow by exactly the delivered chunks in order. Timer seconds do not touch them, however many chunks arrive between them. |
| SessionProperties.RecordedFrom | src/react-audio-recorder.jsx:458-494 | From a capturing recorder with no chunks, stopping after any number of chunks and timer seconds below the cap yields exactly the delivered bytes as `audio/mp3`. |
| SessionProperties.CapturedAcrossTicks | src/react-audio-recorder.jsx:432-494 | After a granted start, a recording whose timer counts up to thirty minutes, with any number of chunks interleaved with the timer seconds, stops with exactly the delivered bytes as its `audio/mp3` payload. |
| Session.StopRecording | src/react-audio-recorder.jsx:502-522 | Without a capturing recorder this is a no-op. Otherwise it stops the recorder, releases the stream, clears the timer, ends recording and makes the chunks the payload. Only those five fields change: the time, playback, list, upload and loading flags, link, message, store answer, open id, hash and chunks are kept. |
| SessionProperties.StopIdempotent | src/react-audio-recorder.jsx:502-503 | Stopping twice equals stopping once. |
| Storage.ResolveBlobId | src/react-audio-recorder.jsx:544-545 | A non-empty `newlyCreated.blobObject.blobId` wins, then `alreadyCertified.blobId`. The result is empty exactly when both are empty. |
| Storage.BothBranchesResolveAlike | src/react-audio-recorder.jsx:544-545 | Either answer branch carrying an id resolves to that id, so one content gives one id. |
| Storage.StoreBlob | src/react-audio-recorder.jsx:584-605 | The store succeeds exactly on status 200 with a parseable body, and keeps the blob's MIME type. Every other outcome is the error. |
| Storage.FetchedBlob | src/react-audio-recorder.jsx:297-298 | The fetched bytes keep the declared type. A missing type becomes `audio/mp3`. |
| Session.UploadedId | src/react-audio-recorder.jsx:535-547 | An id is yielded exactly for status 200 with a JSON answer whose resolved id is non-empty. The id is then that resolved id. |
| Session.SaveRecording | src/react-audio-recorder.jsx:524-582 | Without a payload nothing happens. On success exactly one record `(id, name, duration = recording time, timestamp, blobId = id, payload type)` is prepended to the old list, and the link and hash are opened. A JSON answer is shown in the answer panel. A thrown or non-200 store sets the save-failed message, a falsy answer sets the invalid-response message, and an empty id sets the missing-id message. On every failure the list, link, id and hash are unchanged. The payload, capture refs and playback flags are never touched, and uploading ends false. |
| Session.SaveFailed | src/react-audio-recorder.jsx:527-580 | A failed save clears the answer panel, sets the given message and ends uploading. Nothing else changes. |
| Session.SaveAnswered | src/react-audio-recorder.jsx:537-572 | A JSON answer is shown in the panel. An empty resolved id sets the missing-id message and keeps the list. Otherwise the one new record is prepended, and the id, link and hash are opened with no message. |
| Recordings.FindById | src/react-audio-recorder.jsx:610 | The result is the first record in the list with the id. There is none exactly when no record has the id. |
| Recordings.RemoveById | src/react-audio-recorder.jsx:613 | The records kept are exactly those whose id differs. The length drops by the number of matches. |
| Recordings.RemoveDistributes | src/react-audio-recorder.jsx:613 | Filtering commutes with concatenation, so the order of the kept records is preserved. |
| Recordings.RemoveAbsent | src/react-audio-recorder.jsx:613 | Removing an id that no record has leaves the list unchanged. |
| Recordings.FindAfterPrepend | src/react-audio-recorder.jsx:562 | The newest record is found first, even when an older record shares its id. |
| Recordings.RemoveAfterPrepend | src/react-audio-recorder.jsx:562 | Deleting a just-prepended record's id equals deleting it from the old list. |
| Session.DeleteRecording | src/react-audio-recorder.jsx:607-637 | Records with the id are removed. If the first of them is open in the hash, the payload, id, time, link and store answer are cleared and playback stops, while the recorder, stream, timer, chunks, loading and upload flags, recording flag and message are kept. Otherwise nothing else changes. |
| SessionProperties.DeleteJustSaved | src/react-audio-recorder.jsx:607-637 | Deleting the recording just saved removes it and closes the open session. |
| SessionProperties.DeleteMissingIsNoOp | src/react-audio-recorder.jsx:607-616 | Deleting an absent id changes nothing at all. |
| Session.LoadRecordingAsWritten | src/react-audio-recorder.jsx:251-357 | The id becomes current, playback stops and loading ends false. A lazy load sets the link and hash, sets no message and keeps the old payload. An ok fetch installs the fetched blob and measured time. A non-ok status sets the status message, and every failure keeps the payload and link. The list, recording flag, upload flag, store answer, chunks, recorder, stream and timer are never touched. |
| Session.FetchError | src/react-audio-recorder.jsx:289-356 | There is no message exactly for an ok status with a readable body. A non-ok status yields the status message. Messages are never empty. |
| Session.ApplyFetch | src/react-audio-recorder.jsx:291-350 | On success the fetched blob, measured time, link and hash are installed. The id, playback, list, upload, recorder, timer, stream, store answer and chunks are unchanged. On failure only the message and loading flag change. |
| Session.LoadRecording | src/react-audio-recorder.jsx:251-357 | Same as the as-written load, except that the previous payload is dropped. A lazy load therefore leaves no payload, and a failed fetch leaves none. The same fields are never touched. |
| Session.LoadFailedMessageIdentifiesStatus | src/react-audio-recorder.jsx:347 | Distinct statuses give distinct messages, so the message determines the status. |
| Links.ShareUrl | src/react-audio-recorder.jsx:565 | The link is the origin, then `/#`, then the blob id. Its fragment reads back as the blob id when the origin has no `#`. |
| Links.HashOf | src/react-audio-recorder.jsx:609 | The fragment is never longer than the URL, and is empty when the URL has no `#`. |
| Links.FragmentAfterFirstHash | src/react-audio-recorder.jsx:609 | When the first `#` of a URL is at position `i`, the fragment is exactly the text after it. |
| Links.StartupId | src/react-audio-recorder.jsx:668-686 | A non-empty `recording` parameter wins over the hash. Nothing is chosen exactly when both are empty. |
| Links.OpeningShareLink | src/react-audio-recorder.jsx:674-686 | A share link opened without a parameter starts up on its id. |
| Session.Startup | src/react-audio-recorder.jsx:668-687 | The chosen id is opened lazily. The mounted session then differs only in the open id, the hash (which becomes that id, also when the `recording` parameter chose it) and the share link: no payload, no message, no playback, and loading is false. With neither source, the session is left as mounted. |
| Session.Initial | src/react-audio-recorder.jsx:36-53 | The mounted session is consistent, holds the saved list and the hash, and has nothing open. It is idle: not recording, not playing, not loading, at time zero with no message, no recorder, no stream, no chunks and no store answer. |
| SessionProperties.ShareLinkReopens | src/react-audio-recorder.jsx:668-687 | Starting up from a saved share link opens that id lazily, with the same link. |
| Session.ResetForNewRecording | src/react-audio-recorder.jsx:801-832 | Recording and playback stop, and everything about the open recording is cleared. The saved list, the chunks and the loading and upload flags are kept. When nothing was recording, the recorder, stream and timer are kept as well. |
| Session.TogglePlayback | src/react-audio-recorder.jsx:360-376 | When playing, it pauses. With no payload but an open id, it is exactly the fetching load of that id, and a payload is present afterwards exactly when the fetch succeeded. With neither, it reports nothing to play. |
| Session.AttemptPlay | src/react-audio-recorder.jsx:378-425 | When playback started, it is playing with no message. When autoplay was refused, it shows the tap-again message. Only the playing flag and the message change. |
| SessionProperties.LazyLoadThenPlayFetches | src/react-audio-recorder.jsx:368-372 | After a lazy load, play fetches exactly the loaded id and then holds the fetched payload. |
| SessionProperties.SecondPlayDoesNotRefetch | src/react-audio-recorder.jsx:369 | Once the payload is held, play proceeds without another fetch. |
| SessionProperties.StalePayloadAsWritten | src/react-audio-recorder.jsx:274-285 | As written, a lazy load of a new id keeps the old payload, and play proceeds on it without fetching. |
| SessionProperties.RunKeepsWellFormed | src/react-audio-recorder.jsx:432-522 | Over any sequence of events, both for the program as written and for the corrected load, recording holds exactly while the recorder captures and the timer runs exactly while recording. No upload is left pending. |
| SessionProperties.HappyPath | src/react-audio-recorder.jsx:524-569 | Start, three ticks, stop, and a save answered with `abc123` yield exactly one record: id `abc123`, 3 seconds, `audio/mp3`. |

## Left out

- The metadata-line framing of stored blobs is not modelled. The code stores and fetches the raw recording.
- Rendering, the toast, clipboard copy, the store-answer panel toggle and `formatJSON` are not modelled. They are view code.
- `getUserMedia`, `MediaRecorder`, the `Audio` element, `AudioContext`, the iOS unlock handlers and `cleanupAudioResources` are browser device I/O. They appear only as outcome parameters (`MicOutcome`, the `started` flag of `AttemptPlay`).
- The publisher and aggregator requests are network I/O. Their status, body and JSON shape are parameters. The request URLs, including the retention of 10 epochs sent with every store, are not modelled.
- Blob ids that are JSON values other than strings are not modelled. `StoreInfo` holds only optional strings.
- Durations measured from media elements (`getAudioDuration`, `loadedmetadata`, `Math.round`) are floating point. A refined duration is an input natural.
- The 100 ms playback-position interval is timer-driven and float-valued.
- `localStorage` persistence and `clearBrowserCache` are external storage. The saved list is an input to `Session.Startup`.
- The `window.location` parsing (`URLSearchParams`, `hash`) is browser API. The `recording` parameter and the hash are inputs, and an absent parameter is the empty string.
- Asynchronous ordering and stale closures are not modelled. The recorder's `onstop` is folded into `Session.StopRecording`. The timer's stop is applied immediately.
- `playRecording` is not modelled. Its effect depends on a stale `audioBlob` closure and on the audio element's `src`.
- Session.TogglePlayback: covers the opening branches only. The later branches depend on the audio element's `src` and duration, and on a thrown `createObjectURL(null)`.
- Clock.FormatTime: fractional seconds are not modelled. They are floating point, and callers pass whole seconds for the recording time.
- Session.StartRecording: starting while already recording would leave a second timer running in the code. The model keeps a single timer flag.
- The clock: a saved record's `name` (`Recording ` followed by the local time) and `timestamp` (ISO time) are inputs to `Session.SaveRecording` (lines 552-555).
- Record-id uniqueness is not an invariant, because the code does not enforce it.

## Findings

| source | as written | input that shows it | evidently intended | confidence | as-written member | corrected member |
|---|---|---|---|---|---|---|
| src/react-audio-recorder.jsx:274-285 | The lazy branch of `loadRecording` sets the new id, link and hash but keeps the previous `audioBlob`. `togglePlayback` then skips the fetch because a payload is present. | Recording A is open with its payload. Recording B is loaded lazily. Play proceeds on A's payload while the id and share link name B, and B is never fetched. | Opening another recording drops the old payload, so play fetches the newly opened id. | medium, not executed | SessionProperties.StalePayloadAsWritten (on Session.LoadRecordingAsWritten) | Session.LoadRecording (SessionProperties.LazyLoadThenPlayFetches) |

=== FILE: clock.dfy ===
/**
 The recorder's `MM:SS` clock text and the once-per-second recording timer.
 */
module Clock {
  import opened Decimal
  import opened Optional

  /** Longest recording, in seconds (thirty minutes). */
  const MAX_RECORDING_TIME: nat := 30 * 60

  /** What the clock formatter may be handed: a JavaScript value that is either
      absent, not a number, infinite, or a whole number of seconds. */
  datatype TimeValue = Undefined | Null | NotANumber | Infinite | Whole(n: int)

  /** The text shown for an absent or invalid time. */
  const ZERO_CLOCK: string := "00:00"

  /** JavaScript's `n % 60`: the remainder takes the sign of the dividend. */
  function JsRemainder60(n: int): (r: int)
    ensures n >= 0 ==> 0 <= r < 60
    ensures n < 0 ==> -60 < r <= 0
    ensures (n - r) % 60 == 0
  {
    if n >= 0 then n % 60 else -((-n) % 60)
  }

  /** Two whole numbers as clock text: each padded to at least two characters,
      joined by a colon. */
  function ClockText(minutes: int, seconds: int): (r: string)
    ensures |r| >= 5
    ensures minutes < 0 ==> r[0] == '-'
  {
    PadStart2(IntToDecimal(minutes)) + ":" + PadStart2(IntToDecimal(seconds))
  }

  /** Clock text of naturals, seconds below sixty, reads back as minutes * 60 + seconds. */
  lemma ParseClockText(minutes: nat, seconds: nat)
    requires seconds < 60
    ensures ParseClock(ClockText(minutes, seconds)) == Some(minutes * 60 + seconds)
  {
    var m, s := NatToDecimal(minutes), NatToDecimal(seconds);
    assert IntToDecimal(minutes) == m && IntToDecimal(seconds) == s;
    var mm, ss := PadStart2(m), PadStart2(s);
    assert ParseDecimal(mm) == Some(minutes);
    assert |s| <= 2;
    assert |ss| == 2 && ParseDecimal(ss) == Some(seconds);
    assert ParseClockFields(mm, ss) == Some(minutes * 60 + seconds);
    ParseClockOfParts(mm, ss);
  }

  /** `formatTime`: minutes (floored) and the remainder seconds, each padded to
      at least two digits, joined by a colon; anything but a whole number shows
      as zero. */
  function FormatTime(v: TimeValue): (r: string)
    ensures |r| >= 5
    ensures !v.Whole? ==> r == ZERO_CLOCK
    ensures v.Whole? && v.n >= 0 ==> ParseClock(r) == Some(v.n)
    ensures v.Whole? && v.n < 0 ==> r[0] == '-'
    ensures v.Whole? && 0 <= v.n < 6000 ==> |r| == 5
    ensures v.Whole? && v.n >= 6000 ==> r[0] != '0'
  {
    match v
    case Whole(n) =>
      // Math.floor(n / 60): Euclidean division by a positive divisor floors
      var minutes := n / 60;
      var seconds := JsRemainder60(n);
      if n >= 0 then
        ParseClockText(minutes, seconds);
        ClockText(minutes, seconds)
      else
        ClockText(minutes, seconds)
    case _ => ZERO_CLOCK
  }

  /** Reads clock text back to a number of seconds: a minutes field, a colon,
      and exactly two digits of seconds below sixty. */
  function ParseClock(t: string): (r: Option<nat>)
    ensures r.Some? ==> |t| >= 4 && t[|t| - 3] == ':'
  {
    if |t| < 4 || t[|t| - 3] != ':' then None
    else ParseClockFields(t[..|t| - 3], t[|t| - 2..])
  }

  /** The seconds denoted by a minutes field and a seconds field, when both are
      digits and the seconds are below sixty. */
  function ParseClockFields(mm: string, ss: string): (r: Option<nat>)
    ensures r.Some? ==> ParseDecimal(mm).Some? && ParseDecimal(ss).Some? && ParseDecimal(ss).value < 60
  {
    match (ParseDecimal(mm), ParseDecimal(ss))
    case (Some(m), Some(sec)) => if sec < 60 then Some(m * 60 + sec) else None
    case _ => None
  }

  /** Clock text assembled from a minutes field and a two-character seconds
      field reads back as minutes * 60 + seconds. */
  lemma ParseClockOfParts(mm: string, ss: string)
    requires 1 <= |mm| && |ss| == 2
    ensures ParseClock(mm + ":" + ss) == ParseClockFields(mm, ss)
  {
    var t := mm + ":" + ss;
    assert t[|t| - 3] == ':';
    assert t[..|t| - 3] == mm;
    assert t[|t| - 2..] == ss;
  }

  /** The invalid-value text reads back as zero seconds. */
  lemma InvalidShowsZero(v: TimeValue)
    requires !v.Whole?
    ensures ParseClock(FormatTime(v)) == Some(0)
  {
    assert ZERO_CLOCK == "00" + ":" + "00";
    ParseIgnoresLeadingZero("0");
    assert ParseDecimal("0") == Some(0);
    ParseClockOfParts("00", "00");
  }

  /** Outcome of one timer tick: the next elapsed time, and whether the tick
      asks the recorder to stop. */
  datatype TickResult = TickResult(next: nat, stop: bool)

  /** The per-second timer update: count one more second, or at the cap keep the
      value and request a stop. */
  function TickTime(prev: nat): (r: TickResult)
    ensures r.stop <==> prev >= MAX_RECORDING_TIME
    ensures prev <= MAX_RECORDING_TIME ==> r.next <= MAX_RECORDING_TIME
    ensures r.stop ==> r.next == prev
    ensures !r.stop ==> r.next == prev + 1
  {
    if prev >= MAX_RECORDING_TIME then TickResult(prev, true) else TickResult(prev + 1, false)
  }
}

=== FILE: decimal.dfy ===
/**
 Decimal text of integers, as produced by JavaScript's `Number.prototype.toString()`
 on whole numbers and by template-string interpolation, together with
 `String.prototype.padStart(2, '0')` and a parser used to state round trips.
 */
module Decimal {
  import opened Optional

  function DigitChar(d: nat): (c: char)
    requires d < 10
    ensures '0' <= c <= '9'
  {
    (48 + d) as char
  }

  /** The value of a digit character, or none for any other character. */
  function DigitValue(c: char): (r: Option<nat>)
    ensures r.None? <==> !('0' <= c <= '9')
    ensures r.Some? ==> r.value < 10 && DigitChar(r.value) == c
  {
    if '0' <= c <= '9' then Some(c as int - 48) else None
  }

  /** The value of a run of decimal digits (leading zeros allowed, the empty
      run is zero), or none when some character is not a digit. */
  function ParseDecimal(s: string): Option<nat>
    decreases |s|
  {
    if |s| == 0 then Some(0)
    else
      match (ParseDecimal(s[..|s| - 1]), DigitValue(s[|s| - 1]))
      case (Some(high), Some(low)) => Some(high * 10 + low)
      case _ => None
  }

  /** The shortest decimal text of `n`; it reads back as `n`. */
  function NatToDecimal(n: nat): (r: string)
    ensures 1 <= |r| && '0' <= r[0] <= '9'
    ensures n >= 10 ==> r[0] != '0'
    ensures |r| == 1 <==> n < 10
    ensures n < 100 ==> |r| <= 2
    ensures ParseDecimal(r) == Some(n)
    decreases n
  {
    if n < 10 then [DigitChar(n)]
    else
      var high := NatToDecimal(n / 10);
      var r := high + [DigitChar(n % 10)];
      assert r[..|r| - 1] == high;
      r
  }

  /** `toString()` of a whole number: a minus sign before the magnitude when
      negative; the digits read back as the magnitude. */
  function IntToDecimal(i: int): (r: string)
    ensures 1 <= |r|
    ensures i < 0 <==> r[0] == '-'
    ensures i >= 0 ==> r == NatToDecimal(i)
    ensures i < 0 ==> |r| >= 2 && r[1..] == NatToDecimal(-i)
  {
    if i < 0 then "-" + NatToDecimal(-i) else NatToDecimal(i)
  }

  /** Distinct whole numbers have distinct texts. */
  lemma IntToDecimalInjective(a: int, b: int)
    requires IntToDecimal(a) == IntToDecimal(b)
    ensures a == b
  {
    if a < 0 {
      assert ParseDecimal(IntToDecimal(a)[1..]) == Some(-a);
      assert ParseDecimal(IntToDecimal(b)[1..]) == Some(-b);
    } else {
      assert ParseDecimal(IntToDecimal(a)) == Some(a);
      assert ParseDecimal(IntToDecimal(b)) == Some(b);
    }
  }

  /** A leading zero does not change the value. */
  lemma {:induction false} ParseIgnoresLeadingZero(s: string)
    ensures ParseDecimal("0" + s) == ParseDecimal(s)
    decreases |s|
  {
    var t := "0" + s;
    if |s| == 0 {
      assert t[..|t| - 1] == [];
    } else {
      assert t[..|t| - 1] == "0" + s[..|s| - 1];
      assert t[|t| - 1] == s[|s| - 1];
      ParseIgnoresLeadingZero(s[..|s| - 1]);
    }
  }

  /** `padStart(2, '0')`: left-pad with zeros to at least two characters,
      which keeps the value the text reads as. */
  function PadStart2(s: string): (r: string)
    ensures |r| == if |s| < 2 then 2 else |s|
    ensures |s| >= 2 ==> r == s
    ensures ParseDecimal(r) == ParseDecimal(s)
  {
    if |s| >= 2 then s
    else if |s| == 1 then
      ParseIgnoresLeadingZero(s);
      "0" + s
    else
      ParseIgnoresLeadingZero(s);
      ParseIgnoresLeadingZero("0" + s);
      assert "0" + ("0" + s) == "00";
      "00"
  }
}

=== FILE: links.dfy ===
/**
 Share links and the start-up choice of which recording to open. The page
 location is an input: its origin, its `recording` query parameter and its hash.
 */
module Links {
  import opened Optional

  /** The fragment of a URL as `location.hash.substring(1)` gives it: everything
      after the first `#`, or the empty string when there is none. */
  function HashOf(url: string): (h: string)
    ensures |h| <= |url|
    ensures '#' !in url ==> h == ""
    decreases |url|
  {
    if |url| == 0 then ""
    else if url[0] == '#' then url[1..]
    else HashOf(url[1..])
  }

  /** The link shared for a stored blob: `<origin>/#<blobId>`. */
  function ShareUrl(origin: string, blobId: string): (url: string)
    ensures |url| == |origin| + 2 + |blobId|
    ensures url[..|origin|] == origin
    ensures url[|origin|..|origin| + 2] == "/#"
    ensures url[|origin| + 2..] == blobId
    ensures '#' !in origin ==> HashOf(url) == blobId
  {
    var url := origin + "/#" + blobId;
    if '#' !in origin then
      HashAfterPlainPrefix(origin, "/#" + blobId);
      assert origin + ("/#" + blobId) == url;
      url
    else
      url
  }

  /** A prefix without `#` does not change the fragment. */
  lemma {:induction false} HashAfterPlainPrefix(prefix: string, rest: string)
    requires '#' !in prefix
    ensures HashOf(prefix + rest) == HashOf(rest)
    decreases |prefix|
  {
    if |prefix| > 0 {
      assert (prefix + rest)[0] == prefix[0] != '#';
      assert (prefix + rest)[1..] == prefix[1..] + rest;
      assert '#' !in prefix[1..] by {
        assert forall c :: c in prefix[1..] ==> c in prefix;
      }
      HashAfterPlainPrefix(prefix[1..], rest);
    } else {
      assert prefix + rest == rest;
    }
  }

  /** The fragment is everything after the first `#`. */
  lemma FragmentAfterFirstHash(url: string, i: nat)
    requires i < |url| && url[i] == '#' && '#' !in url[..i]
    ensures HashOf(url) == url[i + 1..]
  {
    HashAfterPlainPrefix(url[..i], url[i..]);
    assert url[..i] + url[i..] == url;
    assert url[i..][1..] == url[i + 1..];
  }

  /** The id opened at start-up: a non-empty `recording` query parameter wins
      over the hash; with neither, nothing is opened. An absent parameter is
      passed as the empty string. */
  function StartupId(queryRecording: string, hash: string): (r: Option<string>)
    ensures queryRecording != "" ==> r == Some(queryRecording)
    ensures queryRecording == "" && hash != "" ==> r == Some(hash)
    ensures r.None? <==> queryRecording == "" && hash == ""
  {
    if queryRecording != "" then Some(queryRecording)
    else if |hash| > 0 then Some(hash)
    else None
  }

  /** Opening a share link (without a query parameter) starts up on the shared id. */
  lemma OpeningShareLink(origin: string, blobId: string)
    requires '#' !in origin && blobId != ""
    ensures StartupId("", HashOf(ShareUrl(origin, blobId))) == Some(blobId)
  {
  }
}

=== FILE: optional.dfy ===
/**
 The absent-or-present wrapper used throughout the model for JavaScript values
 that may be `null` or `undefined`.
 */
module Optional {

  datatype Option<+T> = None | Some(value: T) {

    /** Returns the value if present, otherwise `default`. */
    function GetOr(default: T): (r: T)
      ensures Some? ==> r == value
      ensures None? ==> r == default
    {
      match this
      case Some(v) => v
      case None => default
    }
  }
}

=== FILE: properties.dfy ===
/**
 Properties that relate several steps of the recording session: the duration
 cap under the timer, idempotent stop, the captured payload, the consistency
 kept by every event, the save-then-delete and share-then-open round trips,
 and the lazy-load-then-play behaviour.
 */
module SessionProperties {
  import opened Optional
  import opened Clock
  import opened Storage
  import opened Links
  import opened Recordings
  import opened Session

  function Min(a: int, b: int): int {
    if a < b then a else b
  }

  // ---------------------------------------------------------------- timer

  /** `k` timer ticks in a row. */
  function Ticks(s: Session, k: nat): Session
    decreases k
  {
    if k == 0 then s else Ticks(Tick(s), k - 1)
  }

  /** Without a running timer, ticks change nothing. */
  lemma {:induction false} TicksIdle(s: Session, k: nat)
    requires !s.timerRunning
    ensures Ticks(s, k) == s
    decreases k
  {
    if k > 0 {
      TicksIdle(Tick(s), k - 1);
    }
  }

  /** A recording under the cap counts one second per tick up to 1800, and the
      first tick at 1800 stops it; the elapsed time never exceeds the cap. */
  lemma {:induction false} TicksCapped(s: Session, k: nat)
    requires WellFormed(s) && s.isRecording && s.recordingTime <= MAX_RECORDING_TIME
    ensures Ticks(s, k).recordingTime == Min(s.recordingTime + k, MAX_RECORDING_TIME)
    ensures Ticks(s, k).isRecording <==> s.recordingTime + k <= MAX_RECORDING_TIME
    ensures WellFormed(Ticks(s, k))
    decreases k
  {
    if k > 0 {
      var t := Tick(s);
      if s.recordingTime < MAX_RECORDING_TIME {
        TicksCapped(t, k - 1);
      } else {
        TicksIdle(t, k - 1);
      }
    }
  }

  /** From a granted start, `k` ticks show `min(k, 1800)` seconds, and the
      recording is still running exactly while `k <= 1800`. */
  lemma RecordingTimeFromStart(s: Session, k: nat)
    requires WellFormed(s)
    ensures Ticks(StartRecording(s, MicGranted), k).recordingTime == Min(k, MAX_RECORDING_TIME)
    ensures Ticks(StartRecording(s, MicGranted), k).isRecording <==> k <= MAX_RECORDING_TIME
  {
    TicksCapped(StartRecording(s, MicGranted), k);
  }

  // ---------------------------------------------------------------- stop

  /** Stopping twice is stopping once. */
  lemma StopIdempotent(s: Session)
    ensures StopRecording(StopRecording(s)) == StopRecording(s)
  {
  }

  // ---------------------------------------------------------------- capture

  /** The recorder delivering `cs` one chunk at a time. */
  function Feed(s: Session, cs: seq<seq<Byte>>): Session
    decreases |cs|
  {
    if |cs| == 0 then s else DataAvailable(Feed(s, cs[..|cs| - 1]), cs[|cs| - 1])
  }

  /** Delivering chunks leaves the recorder as it was. */
  lemma {:induction false} FeedKeepsRecorder(s: Session, cs: seq<seq<Byte>>)
    ensures Feed(s, cs).recorder == s.recorder
    decreases |cs|
  {
    if |cs| > 0 {
      FeedKeepsRecorder(s, cs[..|cs| - 1]);
    }
  }

  /** The bytes of delivered chunks are appended in arrival order. */
  lemma {:induction false} FeedAppends(s: Session, cs: seq<seq<Byte>>)
    ensures Flatten(Feed(s, cs).chunks) == Flatten(s.chunks) + Flatten(cs)
    decreases |cs|
  {
    if |cs| == 0 {
      assert Flatten(cs) == [];
    } else {
      var init := cs[..|cs| - 1];
      FeedAppends(s, init);
      assert Flatten(cs) == Flatten(init) + cs[|cs| - 1];
      assert (Flatten(s.chunks) + Flatten(init)) + cs[|cs| - 1] == Flatten(s.chunks) + Flatten(cs);
    }
  }

  /** Stopping a capturing recorder that started from no chunks makes the
      delivered bytes the payload, as `audio/mp3`. */
  lemma CapturedFrom(t: Session, cs: seq<seq<Byte>>)
    requires t.RecorderActive() && t.chunks == []
    ensures StopRecording(Feed(t, cs)).audioBlob == Some(Blob(Flatten(cs), "audio/mp3"))
  {
    FeedAppends(t, cs);
    FeedKeepsRecorder(t, cs);
    var fed := Feed(t, cs);
    assert Flatten(t.chunks) == [];
    assert fed.RecorderActive();
    assert Flatten(fed.chunks) == Flatten(cs);
  }

  /** After a granted start, the payload made on stop is exactly the delivered
      bytes, as `audio/mp3`. */
  lemma CapturedPayload(s: Session, cs: seq<seq<Byte>>)
    ensures StopRecording(Feed(StartRecording(s, MicGranted), cs)).audioBlob
            == Some(Blob(Flatten(cs), "audio/mp3"))
  {
    CapturedFrom(StartRecording(s, MicGranted), cs);
  }

  /** What reaches the component while it records: a chunk from the recorder,
      or a second of the timer. */
  datatype CaptureEvent = Delivery(chunk: seq<Byte>) | Second

  /** The capture events applied in order. */
  function Record(s: Session, es: seq<CaptureEvent>): Session
    decreases |es|
  {
    if |es| == 0 then s
    else
      var before := Record(s, es[..|es| - 1]);
      match es[|es| - 1]
      case Delivery(chunk) => DataAvailable(before, chunk)
      case Second => Tick(before)
  }

  /** The chunks among the capture events, in order. */
  function Delivered(es: seq<CaptureEvent>): seq<seq<Byte>>
    decreases |es|
  {
    if |es| == 0 then []
    else
      match es[|es| - 1]
      case Delivery(chunk) => Delivered(es[..|es| - 1]) + [chunk]
      case Second => Delivered(es[..|es| - 1])
  }

  /** The timer seconds among the capture events. */
  function Seconds(es: seq<CaptureEvent>): nat
    decreases |es|
  {
    if |es| == 0 then 0
    else
      match es[|es| - 1]
      case Delivery(_) => Seconds(es[..|es| - 1])
      case Second => Seconds(es[..|es| - 1]) + 1
  }

  /** Below the cap, ticks between chunks neither stop the recorder nor stop
      its timer, and the clock counts exactly the timer seconds. */
  lemma {:induction false} RecordKeepsRecorder(s: Session, es: seq<CaptureEvent>)
    requires s.RecorderActive() && s.timerRunning && s.recordingTime + Seconds(es) <= MAX_RECORDING_TIME
    ensures Record(s, es).RecorderActive() && Record(s, es).timerRunning
    ensures Record(s, es).recordingTime == s.recordingTime + Seconds(es)
    decreases |es|
  {
    if |es| > 0 {
      RecordKeepsRecorder(s, es[..|es| - 1]);
    }
  }

  /** The bytes one capture event carries: a chunk's, or none for a second. */
  function Bytes(e: CaptureEvent): seq<Byte> {
    match e
    case Delivery(chunk) => chunk
    case Second => []
  }

  /** The delivered bytes grow by the last event's bytes. */
  lemma DeliveredLast(es: seq<CaptureEvent>)
    requires |es| > 0
    ensures Flatten(Delivered(es)) == Flatten(Delivered(es[..|es| - 1])) + Bytes(es[|es| - 1])
  {
  }

  /** Below the cap, the last event adds exactly its bytes to the captured
      bytes: a second of the timer adds none. */
  lemma RecordLast(s: Session, es: seq<CaptureEvent>)
    requires |es| > 0
    requires Record(s, es[..|es| - 1]).timerRunning
    requires es[|es| - 1].Second? ==> Record(s, es[..|es| - 1]).recordingTime < MAX_RECORDING_TIME
    ensures Flatten(Record(s, es).chunks) == Flatten(Record(s, es[..|es| - 1]).chunks) + Bytes(es[|es| - 1])
  {
  }

  /** Below the cap, the captured bytes grow by exactly the delivered chunks;
      the timer's seconds do not touch them. */
  lemma {:induction false} RecordAppends(s: Session, es: seq<CaptureEvent>)
    requires s.RecorderActive() && s.timerRunning && s.recordingTime + Seconds(es) <= MAX_RECORDING_TIME
    ensures Flatten(Record(s, es).chunks) == Flatten(s.chunks) + Flatten(Delivered(es))
    decreases |es|
  {
    if |es| == 0 {
      assert Flatten(Delivered(es)) == [];
    } else {
      var init := es[..|es| - 1];
      var e := Bytes(es[|es| - 1]);
      assert Flatten(Record(s, init).chunks) == Flatten(s.chunks) + Flatten(Delivered(init)) by {
        assert Seconds(init) <= Seconds(es);
        RecordAppends(s, init);
      }
      assert Flatten(Record(s, es).chunks) == Flatten(Record(s, init).chunks) + e by {
        RecordKeepsRecorder(s, init);
        if es[|es| - 1].Second? {
          assert Seconds(es) == Seconds(init) + 1;
        }
        RecordLast(s, es);
      }
      DeliveredLast(es);
      AppendAssociates(Flatten(s.chunks), Flatten(Delivered(init)), e);
    }
  }

  lemma AppendAssociates(a: seq<Byte>, b: seq<Byte>, c: seq<Byte>)
    ensures (a + b) + c == a + (b + c)
  {
  }

  /** Stopping a capturing recorder that started from no chunks, after chunks
      and timer seconds below the cap, makes the delivered bytes the payload. */
  lemma RecordedFrom(t: Session, es: seq<CaptureEvent>)
    requires t.RecorderActive() && t.timerRunning && t.chunks == []
    requires t.recordingTime + Seconds(es) <= MAX_RECORDING_TIME
    ensures StopRecording(Record(t, es)).audioBlob == Some(Blob(Flatten(Delivered(es)), "audio/mp3"))
  {
    RecordKeepsRecorder(t, es);
    RecordAppends(t, es);
    var u := Record(t, es);
    assert Flatten(t.chunks) == [];
    assert u.RecorderActive();
    assert Flatten(u.chunks) == Flatten(Delivered(es));
  }

  /** A recording whose timer counts up to thirty minutes, with any number of
      chunks and timer seconds interleaved in any order, stops with exactly the
      delivered bytes as its `audio/mp3` payload. */
  lemma CapturedAcrossTicks(s: Session, es: seq<CaptureEvent>)
    requires Seconds(es) <= MAX_RECORDING_TIME
    ensures StopRecording(Record(StartRecording(s, MicGranted), es)).audioBlob
            == Some(Blob(Flatten(Delivered(es)), "audio/mp3"))
  {
    RecordedFrom(StartRecording(s, MicGranted), es);
  }

  // ---------------------------------------------------------------- events

  /** Every user action and event the component reacts to, with its outcome. */
  datatype Event =
    | Start(mic: MicOutcome)
    | StartNew(mic: MicOutcome)
    | Chunk(data: seq<Byte>)
    | TimerTick
    | Stop
    | Load(id: string, fetch: Fetch)
    | Save(upload: UploadOutcome, name: string, timestamp: string)
    | Delete(id: string)
    | Reset
    | Toggle(fetched: FetchOutcome, measured: Option<nat>)
    | Play(started: bool)

  /** Which load the page runs: the one as written, which keeps the previous
      payload on a lazy load, or the corrected one, which drops it. */
  datatype Build = AsWritten | Corrected

  function Step(s: Session, e: Event, origin: string, build: Build): Session {
    match e
    case Start(mic) => StartRecording(s, mic)
    case StartNew(mic) => StartNewRecording(s, mic)
    case Chunk(data) => DataAvailable(s, data)
    case TimerTick => Tick(s)
    case Stop => StopRecording(s)
    case Load(id, fetch) =>
      if build.AsWritten? then LoadRecordingAsWritten(s, id, fetch, origin)
      else LoadRecording(s, id, fetch, origin)
    case Save(upload, name, timestamp) => SaveRecording(s, upload, name, timestamp, origin)
    case Delete(id) => DeleteRecording(s, id)
    case Reset => ResetForNewRecording(s)
    case Toggle(fetched, measured) => TogglePlayback(s, fetched, measured, origin).session
    case Play(started) => AttemptPlay(s, started)
  }

  function Run(s: Session, es: seq<Event>, origin: string, build: Build): Session
    decreases |es|
  {
    if |es| == 0 then s else Run(Step(s, es[0], origin, build), es[1..], origin, build)
  }

  /** Whatever happens, in whatever order, and with either load, the flags and
      refs stay consistent: recording exactly while the recorder captures, the
      timer exactly while recording, and no upload left pending. */
  lemma {:induction false} RunKeepsWellFormed(s: Session, es: seq<Event>, origin: string, build: Build)
    requires WellFormed(s)
    ensures WellFormed(Run(s, es, origin, build))
    decreases |es|
  {
    if |es| > 0 {
      RunKeepsWellFormed(Step(s, es[0], origin, build), es[1..], origin, build);
    }
  }

  // ---------------------------------------------------------------- scenarios

  /** Record three seconds, stop, and save against a publisher that answers
      with a newly created blob `abc123`: exactly one record, for that id, of
      three seconds. */
  lemma HappyPath(name: string, timestamp: string, origin: string)
    ensures
      var started := StartRecording(Initial([], ""), MicGranted);
      var stopped := StopRecording(Ticks(started, 3));
      var saved := SaveRecording(stopped, UploadResponse(200, Json(NewlyCreatedAnswer("abc123"))),
                                 name, timestamp, origin);
      saved.recordings == [Recording("abc123", name, 3, timestamp, "abc123", "audio/mp3")]
      && saved.shareLink == ShareUrl(origin, "abc123")
  {
    var started := StartRecording(Initial([], ""), MicGranted);
    TicksCapped(started, 3);
    var stopped := StopRecording(Ticks(started, 3));
    assert stopped.audioBlob.Some? && stopped.audioBlob.value.mimeType == "audio/mp3";
    BothBranchesResolveAlike("abc123");
  }

  /** Deleting the recording just saved removes it (and any older record with
      its id) and closes it, since the save opened it in the hash. */
  lemma DeleteJustSaved(s: Session, upload: UploadOutcome, name: string, timestamp: string, origin: string)
    requires s.audioBlob.Some? && UploadedId(upload, s.audioBlob.value).Some?
    ensures
      var id := UploadedId(upload, s.audioBlob.value).value;
      var r := DeleteRecording(SaveRecording(s, upload, name, timestamp, origin), id);
      && r.recordings == RemoveById(s.recordings, id)
      && r.audioBlob.None? && r.currentBlobId == "" && r.shareLink == "" && r.hash == ""
  {
    var id := UploadedId(upload, s.audioBlob.value).value;
    var saved := SaveRecording(s, upload, name, timestamp, origin);
    assert saved.recordings == [saved.recordings[0]] + s.recordings;
    FindAfterPrepend(saved.recordings[0], s.recordings);
    RemoveAfterPrepend(saved.recordings[0], s.recordings);
    assert DeletesOpen(saved, id);
  }

  /** Deleting an id that no record has changes nothing at all. */
  lemma DeleteMissingIsNoOp(s: Session, id: string)
    requires forall k :: 0 <= k < |s.recordings| ==> s.recordings[k].id != id
    ensures DeleteRecording(s, id) == s
  {
    RemoveAbsent(s.recordings, id);
  }

  /** Opening the link a save produced starts up on the saved id, lazily. */
  lemma ShareLinkReopens(saved: seq<Recording>, origin: string, id: string)
    requires '#' !in origin && id != ""
    ensures
      var r := Startup(saved, "", HashOf(ShareUrl(origin, id)), origin);
      r.currentBlobId == id && r.shareLink == ShareUrl(origin, id) && r.audioBlob.None?
  {
  }

  // ---------------------------------------------------------------- playback

  /** After a lazy load, the play button fetches the loaded id, and what it
      holds afterwards is exactly the fetched payload. */
  lemma LazyLoadThenPlayFetches(s: Session, id: string, fetched: FetchOutcome, measured: Option<nat>, origin: string)
    requires id != ""
    ensures
      var shown := LoadRecording(s, id, Lazy, origin);
      var step := TogglePlayback(shown, fetched, measured, origin);
      && step.Proceed?
      && step.session == LoadRecording(shown, id, Eager(fetched, measured), origin)
      && step.session.currentBlobId == id
      && (FetchSucceeded(Eager(fetched, measured)) ==>
            step.session.audioBlob == Some(FetchedBlob(fetched.body.bytes, fetched.body.declaredType)))
  {
  }

  /** Once a fetch has delivered the payload, pressing play again (after a
      pause) proceeds on the held payload without fetching again. */
  lemma SecondPlayDoesNotRefetch(s: Session, id: string, fetched: FetchOutcome, measured: Option<nat>,
                                 again: FetchOutcome, origin: string)
    requires id != "" && FetchSucceeded(Eager(fetched, measured))
    ensures
      var held := LoadRecording(LoadRecording(s, id, Lazy, origin), id, Eager(fetched, measured), origin);
      TogglePlayback(held, again, None, origin) == Proceed(held)
  {
  }

  /** As written, a lazy load keeps the payload of the recording open before it,
      so the play button plays that payload under the new id without fetching. */
  lemma StalePayloadAsWritten(s: Session, other: Blob, id: string, fetched: FetchOutcome, origin: string)
    requires s.audioBlob == Some(other)
    ensures
      var shown := LoadRecordingAsWritten(s, id, Lazy, origin);
      && shown.currentBlobId == id
      && TogglePlayback(shown, fetched, None, origin) == Proceed(shown)
      && shown.audioBlob == Some(other)
  {
  }
}

=== FILE: recordings.dfy ===
/**
 The saved-recordings list: newest first, kept as a sequence of records.
 Ids are not required to be unique; a re-upload of certified content adds a
 second record with the same id.
 */
module Recordings {
  import opened Optional

  /** One saved recording; `id` and `blobId` are both the store's blob id. */
  datatype Recording = Recording(
    id: string,
    name: string,
    duration: nat,
    timestamp: string,
    blobId: string,
    mediaType: string)

  /** Number of records whose id is `id`. */
  function CountId(list: seq<Recording>, id: string): (n: nat)
    ensures n <= |list|
    decreases |list|
  {
    if |list| == 0 then 0
    else (if list[0].id == id then 1 else 0) + CountId(list[1..], id)
  }

  /** `recordings.find(r => r.id === id)`: the first record with that id. */
  function FindById(list: seq<Recording>, id: string): (r: Option<Recording>)
    ensures r.Some? ==> r.value in list && r.value.id == id
    ensures r.Some? ==> exists k :: 0 <= k < |list| && list[k] == r.value
                                    && forall j :: 0 <= j < k ==> list[j].id != id
    ensures r.None? <==> forall k :: 0 <= k < |list| ==> list[k].id != id
    decreases |list|
  {
    if |list| == 0 then None
    else if list[0].id == id then Some(list[0])
    else FindById(list[1..], id)
  }

  /** `recordings.filter(r => r.id !== id)`. */
  function RemoveById(list: seq<Recording>, id: string): (r: seq<Recording>)
    ensures forall x :: x in r <==> x in list && x.id != id
    ensures |r| == |list| - CountId(list, id)
    decreases |list|
  {
    if |list| == 0 then []
    else if list[0].id == id then RemoveById(list[1..], id)
    else [list[0]] + RemoveById(list[1..], id)
  }

  /** Removal keeps the relative order of what stays: removing from a
      concatenation is concatenating the removals. */
  lemma {:induction false} RemoveDistributes(a: seq<Recording>, b: seq<Recording>, id: string)
    ensures RemoveById(a + b, id) == RemoveById(a, id) + RemoveById(b, id)
    decreases |a|
  {
    if |a| > 0 {
      assert (a + b)[0] == a[0];
      assert (a + b)[1..] == a[1..] + b;
      RemoveDistributes(a[1..], b, id);
      if a[0].id != id {
        assert [a[0]] + (RemoveById(a[1..], id) + RemoveById(b, id))
            == ([a[0]] + RemoveById(a[1..], id)) + RemoveById(b, id);
      }
    } else {
      assert a + b == b;
    }
  }

  /** A list without the id is left exactly as it was. */
  lemma {:induction false} RemoveAbsent(list: seq<Recording>, id: string)
    requires forall k :: 0 <= k < |list| ==> list[k].id != id
    ensures RemoveById(list, id) == list
    decreases |list|
  {
    if |list| > 0 {
      RemoveAbsent(list[1..], id);
      assert [list[0]] + list[1..] == list;
    }
  }

  /** The newest record is found first, even when an older one shares its id. */
  lemma FindAfterPrepend(rec: Recording, list: seq<Recording>)
    ensures FindById([rec] + list, rec.id) == Some(rec)
  {
  }

  /** Deleting the id of a just-prepended record removes it and every older
      record with that id, and nothing else. */
  lemma {:induction false} RemoveAfterPrepend(rec: Recording, list: seq<Recording>)
    ensures RemoveById([rec] + list, rec.id) == RemoveById(list, rec.id)
  {
    RemoveDistributes([rec], list, rec.id);
    assert RemoveById([rec], rec.id) == [];
  }
}

=== FILE: session.dfy ===
/**
 The recording session of the audio recorder component: one immutable record
 holding the component's state and its refs, and one pure function per user
 action or event. Every outcome the component waits on (microphone access, the
 publisher's and aggregator's answers, the measured duration, whether playback
 started) is a parameter. State updates are applied immediately, in program
 order.
 */
module Session {
  import opened Optional
  import opened Decimal
  import opened Clock
  import opened Storage
  import opened Links
  import opened Recordings

  /** State of the `MediaRecorder` held in its ref. */
  datatype RecorderState = Capturing | Inactive
  datatype RecorderRef = NoRecorder | Recorder(state: RecorderState)

  /** The component's state variables, the page hash (without `#`) and the refs
      to the recorder, the microphone stream, the timer and the captured chunks. */
  datatype Session = Session(
    isRecording: bool,
    recordingTime: nat,
    audioBlob: Option<Blob>,
    isPlaying: bool,
    recordings: seq<Recording>,
    uploading: bool,
    shareLink: string,
    errorMessage: string,
    blockchainData: Option<StoreInfo>,
    showBlockchainData: bool,
    isLoadingBlob: bool,
    currentBlobId: string,
    hash: string,
    recorder: RecorderRef,
    streamHeld: bool,
    timerRunning: bool,
    chunks: seq<seq<Byte>>)
  {
    predicate RecorderActive() {
      recorder == Recorder(Capturing)
    }
  }

  const MIC_ERROR: string := "Could not access microphone. Please check permissions and try again."
  const LOAD_ERROR_PREFIX: string := "Error loading recording: "
  const SAVE_FAILED: string := "Failed to save recording. Please try again."
  const INVALID_RESPONSE: string := "Invalid response from storage service."
  const NO_BLOB_ID: string := "Failed to get a valid blob ID from the storage response."
  const NOTHING_TO_PLAY: string := "No recording available to play"
  const TAP_AGAIN: string := "Please tap the play button again to start audio playback"

  /** The message shown when the aggregator answers with a non-ok status. */
  function LoadFailedMessage(status: int): string {
    "Failed to load recording (" + IntToDecimal(status) + "). Please try again."
  }

  /** The consistency the component keeps between its flags and its refs:
      recording exactly while the recorder captures, the timer runs exactly
      while recording, a recording holds the microphone, and no upload is left
      pending once an action has finished. */
  predicate WellFormed(s: Session) {
    && (s.isRecording <==> s.RecorderActive())
    && (s.timerRunning <==> s.isRecording)
    && (s.isRecording ==> s.streamHeld)
    && !s.uploading
  }

  /** The component as first mounted: the saved list and the page's hash. */
  function Initial(saved: seq<Recording>, hash: string): (s: Session)
    ensures WellFormed(s)
    ensures s.recordings == saved && s.hash == hash
    ensures s.audioBlob.None? && s.currentBlobId == "" && s.shareLink == ""
    ensures !s.isRecording && !s.isPlaying && !s.isLoadingBlob && s.recordingTime == 0 && s.errorMessage == ""
    ensures s.recorder == NoRecorder && !s.streamHeld && s.chunks == [] && s.blockchainData.None? && !s.showBlockchainData
  {
    Session(false, 0, None, false, saved, false, "", "", None, false, false, "", hash,
            NoRecorder, false, false, [])
  }

  /** The captured chunks joined in arrival order. */
  function Flatten(chunks: seq<seq<Byte>>): seq<Byte>
    decreases |chunks|
  {
    if |chunks| == 0 then [] else Flatten(chunks[..|chunks| - 1]) + chunks[|chunks| - 1]
  }

  // ---------------------------------------------------------------- capture

  /** What asking for the microphone produced: access denied (or no device), a
      stream whose recorder could not be created or started, or a running
      recorder. */
  datatype MicOutcome = MicDenied | RecorderFailed | MicGranted

  /** `startRecording`: clear the previous take, then either start capturing
      (recorder, stream and one-second timer) or report the microphone error. */
  function StartRecording(s: Session, mic: MicOutcome): (r: Session)
    ensures r.recordingTime == 0 && r.audioBlob.None? && r.chunks == []
    ensures r.shareLink == "" && r.hash == ""
    ensures r.recordings == s.recordings && r.currentBlobId == s.currentBlobId
    ensures mic.MicGranted? ==> r.isRecording && r.RecorderActive() && r.timerRunning && r.errorMessage == ""
    ensures !mic.MicGranted? ==> r.errorMessage == MIC_ERROR && r.isRecording == s.isRecording
    ensures !mic.MicGranted? ==> r.recorder == s.recorder && r.timerRunning == s.timerRunning
    ensures mic.MicDenied? ==> r.streamHeld == s.streamHeld
    ensures r.isPlaying == s.isPlaying && r.uploading == s.uploading && r.isLoadingBlob == s.isLoadingBlob
    ensures r.blockchainData == s.blockchainData && r.showBlockchainData == s.showBlockchainData
    ensures WellFormed(s) ==> WellFormed(r)
  {
    var cleared := s.(recordingTime := 0, audioBlob := None, shareLink := "", errorMessage := "",
                      chunks := [], hash := "");
    match mic
    case MicDenied => cleared.(errorMessage := MIC_ERROR)
    case RecorderFailed => cleared.(streamHeld := true, errorMessage := MIC_ERROR)
    case MicGranted =>
      cleared.(streamHeld := true, recorder := Recorder(Capturing), isRecording := true, timerRunning := true)
  }

  /** The "Start New Recording" button: forget the open recording, then start. */
  function StartNewRecording(s: Session, mic: MicOutcome): (r: Session)
    ensures r.currentBlobId == "" && r.audioBlob.None? && r.shareLink == "" && r.hash == ""
    ensures r.recordings == s.recordings
    ensures mic.MicGranted? <==> r.errorMessage == ""
    ensures mic.MicGranted? ==> r.isRecording && r.RecorderActive() && r.timerRunning && r.recordingTime == 0 && r.chunks == []
    ensures WellFormed(s) ==> WellFormed(r)
  {
    StartRecording(s.(audioBlob := None, currentBlobId := "", shareLink := "", hash := ""), mic)
  }

  /** `ondataavailable`: keep a chunk only when it is non-empty. */
  function DataAvailable(s: Session, chunk: seq<Byte>): (r: Session)
    ensures Flatten(r.chunks) == Flatten(s.chunks) + chunk
    ensures |chunk| == 0 ==> r == s
    ensures |chunk| > 0 ==> r == s.(chunks := s.chunks + [chunk])
  {
    if |chunk| > 0 then
      var cs := s.chunks + [chunk];
      assert cs[..|cs| - 1] == s.chunks;
      s.(chunks := cs)
    else
      assert Flatten(s.chunks) + chunk == Flatten(s.chunks);
      s
  }

  /** `stopRecording` together with the recorder's `onstop`: does nothing unless
      the recorder is capturing; otherwise stops it, releases the microphone,
      clears the timer, and makes the joined chunks the `audio/mp3` payload. */
  function StopRecording(s: Session): (r: Session)
    ensures KeepsStopFrame(s, r)
    ensures !r.RecorderActive() && (s.RecorderActive() ==> !r.timerRunning)
    ensures !s.RecorderActive() ==> r == s
    ensures s.RecorderActive() ==>
              && !r.isRecording && !r.streamHeld
              && r.audioBlob == Some(Blob(Flatten(s.chunks), "audio/mp3"))
    ensures WellFormed(s) ==> WellFormed(r)
  {
    if !s.RecorderActive() then s
    else
      s.(recorder := Recorder(Inactive), streamHeld := false, timerRunning := false, isRecording := false,
         audioBlob := Some(Blob(Flatten(s.chunks), "audio/mp3")))
  }

  /** What stopping never touches: everything but the recorder, the stream,
      the timer, the recording flag and the payload. */
  predicate KeepsStopFrame(s: Session, r: Session) {
    && r.recordingTime == s.recordingTime && r.isPlaying == s.isPlaying && r.recordings == s.recordings
    && r.uploading == s.uploading && r.shareLink == s.shareLink && r.errorMessage == s.errorMessage
    && r.blockchainData == s.blockchainData && r.showBlockchainData == s.showBlockchainData
    && r.isLoadingBlob == s.isLoadingBlob && r.currentBlobId == s.currentBlobId && r.hash == s.hash
    && r.chunks == s.chunks
  }

  /** The one-second timer: count a second, or at the cap stop the recording
      with the elapsed time left as it was. Nothing happens without a timer. */
  function Tick(s: Session): (r: Session)
    ensures !s.timerRunning ==> r == s
    ensures s.recordingTime <= MAX_RECORDING_TIME ==> r.recordingTime <= MAX_RECORDING_TIME
    ensures s.timerRunning && s.recordingTime < MAX_RECORDING_TIME ==>
              r == s.(recordingTime := s.recordingTime + 1)
    ensures s.timerRunning && s.recordingTime >= MAX_RECORDING_TIME ==> r == StopRecording(s)
    ensures WellFormed(s) ==> WellFormed(r)
  {
    if !s.timerRunning then s
    else
      var t := TickTime(s.recordingTime);
      if t.stop then StopRecording(s) else s.(recordingTime := t.next)
  }

  // ---------------------------------------------------------------- loading

  /** How a recording is opened: lazily (no request), or with the aggregator's
      answer and, when the audio could be measured, its rounded duration. */
  datatype Fetch = Lazy | Eager(outcome: FetchOutcome, measured: Option<nat>)

  /** The fetch produced a readable body under an ok status. */
  predicate FetchSucceeded(f: Fetch) {
    f.Eager? && f.outcome.FetchResponse? && IsOk(f.outcome.status) && f.outcome.body.Body?
  }

  /** `loadRecording` as written: the previous payload is kept unless a fetch
      replaces it. */
  function LoadRecordingAsWritten(s: Session, id: string, fetch: Fetch, origin: string): (r: Session)
    ensures r.currentBlobId == id && !r.isLoadingBlob && !r.isPlaying
    ensures r.recordings == s.recordings && r.isRecording == s.isRecording && r.uploading == s.uploading
    ensures !FetchSucceeded(fetch) ==> r.audioBlob == s.audioBlob
    ensures fetch.Lazy? ==>
              && r.errorMessage == "" && r.shareLink == ShareUrl(origin, id) && r.hash == id
              && r.recordingTime == s.recordingTime
    ensures FetchSucceeded(fetch) ==>
              && r.audioBlob == Some(FetchedBlob(fetch.outcome.body.bytes, fetch.outcome.body.declaredType))
              && r.errorMessage == ""
              && r.shareLink == ShareUrl(origin, id) && r.hash == id
              && r.recordingTime == fetch.measured.GetOr(s.recordingTime)
    ensures fetch.Eager? && fetch.outcome.FetchResponse? && !IsOk(fetch.outcome.status) ==>
              r.errorMessage == LoadFailedMessage(fetch.outcome.status)
    ensures fetch.Eager? && !FetchSucceeded(fetch) ==>
              && r.errorMessage != ""
              && r.shareLink == s.shareLink && r.hash == s.hash
              && r.recordingTime == s.recordingTime
    ensures r.blockchainData == s.blockchainData && r.showBlockchainData == s.showBlockchainData
    ensures r.chunks == s.chunks && r.recorder == s.recorder
    ensures r.timerRunning == s.timerRunning && r.streamHeld == s.streamHeld
    ensures WellFormed(s) ==> WellFormed(r)
  {
    var begun := s.(errorMessage := "", isLoadingBlob := true, currentBlobId := id, isPlaying := false);
    match fetch
    case Lazy => LazyOpen(begun, id, origin)
    case Eager(outcome, measured) => ApplyFetch(begun, id, outcome, measured, origin)
  }

  /** What loading never touches: the open id, playback, the saved list, the
      upload flag and everything about capture. */
  predicate KeepsLoadFrame(s: Session, r: Session) {
    && r.currentBlobId == s.currentBlobId && r.isPlaying == s.isPlaying
    && r.recordings == s.recordings && r.uploading == s.uploading
    && r.isRecording == s.isRecording && r.recorder == s.recorder
    && r.timerRunning == s.timerRunning && r.streamHeld == s.streamHeld
    && r.blockchainData == s.blockchainData && r.showBlockchainData == s.showBlockchainData
    && r.chunks == s.chunks
  }

  /** The non-fetching half of `loadRecording`: only the hash, the share link
      and the loading flag change. */
  function LazyOpen(s: Session, id: string, origin: string): (r: Session)
    ensures r.shareLink == ShareUrl(origin, id) && r.hash == id && !r.isLoadingBlob
    ensures KeepsLoadFrame(s, r)
    ensures r.audioBlob == s.audioBlob && r.errorMessage == s.errorMessage && r.recordingTime == s.recordingTime
  {
    Opened(s, id, origin)
  }

  /** The fetching half of `loadRecording`: on a readable ok answer the fetched
      payload becomes the session's, with the measured duration when there is
      one; on anything else only the message and the loading flag change. */
  function ApplyFetch(s: Session, id: string, outcome: FetchOutcome, measured: Option<nat>, origin: string): (r: Session)
    ensures KeepsLoadFrame(s, r) && !r.isLoadingBlob
    ensures FetchError(outcome).Some? ==>
              && r.errorMessage == FetchError(outcome).value
              && r.audioBlob == s.audioBlob && r.recordingTime == s.recordingTime
              && r.shareLink == s.shareLink && r.hash == s.hash
    ensures FetchError(outcome).None? ==>
              && r.audioBlob == Some(FetchedBlob(outcome.body.bytes, outcome.body.declaredType))
              && r.recordingTime == measured.GetOr(s.recordingTime)
              && r.shareLink == ShareUrl(origin, id) && r.hash == id
              && r.errorMessage == s.errorMessage
  {
    match FetchError(outcome)
    case Some(message) => s.(errorMessage := message, isLoadingBlob := false)
    case None =>
      var loaded := s.(audioBlob := Some(FetchedBlob(outcome.body.bytes, outcome.body.declaredType)),
                       recordingTime := measured.GetOr(s.recordingTime));
      Opened(loaded, id, origin)
  }

  /** The message a fetch outcome shows, or none when it delivered a body under
      an ok status. */
  function FetchError(outcome: FetchOutcome): (m: Option<string>)
    ensures m.None? <==> outcome.FetchResponse? && IsOk(outcome.status) && outcome.body.Body?
    ensures m.Some? ==> m.value != ""
    ensures outcome.FetchResponse? && !IsOk(outcome.status) ==> m == Some(LoadFailedMessage(outcome.status))
  {
    match outcome
    case FetchThrew(message) => Some(LOAD_ERROR_PREFIX + message)
    case FetchResponse(status, body) =>
      if !IsOk(status) then Some(LoadFailedMessage(status))
      else match body
        case BodyThrew(message) => Some(LOAD_ERROR_PREFIX + message)
        case Body(_, _) => None
  }

  /** The end of a successful load: the hash and the share link name the id. */
  function Opened(s: Session, id: string, origin: string): Session {
    s.(hash := id, shareLink := ShareUrl(origin, id), isLoadingBlob := false)
  }

  /** `loadRecording` with the payload of the previously open recording
      dropped first, so that the payload, when present, always belongs to
      `currentBlobId`. */
  function LoadRecording(s: Session, id: string, fetch: Fetch, origin: string): (r: Session)
    ensures r.currentBlobId == id && !r.isLoadingBlob && !r.isPlaying
    ensures r.recordings == s.recordings && r.isRecording == s.isRecording && r.uploading == s.uploading
    ensures fetch.Lazy? ==>
              && r.audioBlob.None? && r.errorMessage == ""
              && r.shareLink == ShareUrl(origin, id) && r.hash == id
              && r.recordingTime == s.recordingTime
    ensures FetchSucceeded(fetch) ==>
              && r.audioBlob == Some(FetchedBlob(fetch.outcome.body.bytes, fetch.outcome.body.declaredType))
              && r.errorMessage == ""
              && r.shareLink == ShareUrl(origin, id) && r.hash == id
              && r.recordingTime == fetch.measured.GetOr(s.recordingTime)
    ensures fetch.Eager? && fetch.outcome.FetchResponse? && !IsOk(fetch.outcome.status) ==>
              r.errorMessage == LoadFailedMessage(fetch.outcome.status)
    ensures fetch.Eager? && !FetchSucceeded(fetch) ==>
              && r.audioBlob.None? && r.errorMessage != ""
              && r.shareLink == s.shareLink && r.hash == s.hash
              && r.recordingTime == s.recordingTime
    ensures r.blockchainData == s.blockchainData && r.showBlockchainData == s.showBlockchainData
    ensures r.chunks == s.chunks && r.recorder == s.recorder
    ensures r.timerRunning == s.timerRunning && r.streamHeld == s.streamHeld
    ensures WellFormed(s) ==> WellFormed(r)
  {
    LoadRecordingAsWritten(s.(audioBlob := None), id, fetch, origin)
  }

  /** Different statuses give different messages, so the message identifies
      the status the aggregator answered with. */
  lemma LoadFailedMessageIdentifiesStatus(a: int, b: int)
    requires LoadFailedMessage(a) == LoadFailedMessage(b)
    ensures a == b
  {
    var pre := "Failed to load recording (";
    var ta, tb := IntToDecimal(a), IntToDecimal(b);
    assert |ta| == |tb|;
    assert ta == LoadFailedMessage(a)[|pre|..|pre| + |ta|];
    assert tb == LoadFailedMessage(b)[|pre|..|pre| + |tb|];
    IntToDecimalInjective(a, b);
  }

  /** Start-up: open the id named by the `recording` query parameter, or else
      by the hash, lazily; with neither, the component stays as mounted. */
  function Startup(saved: seq<Recording>, queryRecording: string, hash: string, origin: string): (r: Session)
    ensures WellFormed(r)
    ensures r.recordings == saved && r.audioBlob.None? && !r.isLoadingBlob && r.errorMessage == ""
    ensures queryRecording != "" ==>
              r.currentBlobId == queryRecording && r.shareLink == ShareUrl(origin, queryRecording)
    ensures queryRecording == "" && hash != "" ==>
              r.currentBlobId == hash && r.shareLink == ShareUrl(origin, hash)
    ensures queryRecording == "" && hash == "" ==> r == Initial(saved, hash)
    ensures StartupId(queryRecording, hash).Some? ==>
              var id := StartupId(queryRecording, hash).value;
              r == Initial(saved, hash).(currentBlobId := id, hash := id, shareLink := ShareUrl(origin, id))
  {
    var mounted := Initial(saved, hash);
    match StartupId(queryRecording, hash)
    case None => mounted
    case Some(id) => LoadRecording(mounted.(isLoadingBlob := true, currentBlobId := id), id, Lazy, origin)
  }

  // ---------------------------------------------------------------- saving

  /** The id a store outcome yields, when it yields one. */
  function UploadedId(outcome: UploadOutcome, blob: Blob): (r: Option<string>)
    ensures r.Some? ==> r.value != ""
    ensures r.Some? ==> outcome.UploadResponse? && outcome.status == 200 && outcome.body.Json?
    ensures r.Some? ==> r.value == ResolveBlobId(outcome.body.info)
    ensures (outcome.UploadResponse? && outcome.status == 200 && outcome.body.Json?
             && ResolveBlobId(outcome.body.info) != "") ==> r.Some?
  {
    match StoreBlob(outcome, blob)
    case Some(Stored(Some(info), _)) => if ResolveBlobId(info) != "" then Some(ResolveBlobId(info)) else None
    case _ => None
  }

  /** The fields a save never touches: the take, its capture and playback. */
  predicate KeepsSaveFrame(s: Session, r: Session) {
    && r.audioBlob == s.audioBlob && r.recordingTime == s.recordingTime && r.isRecording == s.isRecording
    && r.isPlaying == s.isPlaying && r.isLoadingBlob == s.isLoadingBlob && r.chunks == s.chunks
    && r.recorder == s.recorder && r.streamHeld == s.streamHeld && r.timerRunning == s.timerRunning
  }

  /** `saveRecording`: without a payload nothing happens; otherwise store it,
      show the store's answer when it is JSON, and, when the answer yields an
      id, prepend one record for it and open its share link, else report why.
      The upload flag ends cleared either way. */
  function SaveRecording(s: Session, upload: UploadOutcome, name: string, timestamp: string, origin: string): (r: Session)
    ensures s.audioBlob.None? ==> r == s
    ensures KeepsSaveFrame(s, r)
    ensures s.audioBlob.Some? ==> !r.uploading
    ensures s.audioBlob.Some? && UploadedId(upload, s.audioBlob.value).Some? ==>
              var id := UploadedId(upload, s.audioBlob.value).value;
              && r.recordings
                 == [Recording(id, name, s.recordingTime, timestamp, id, s.audioBlob.value.mimeType)] + s.recordings
              && r.currentBlobId == id && r.shareLink == ShareUrl(origin, id) && r.hash == id
              && r.errorMessage == ""
    ensures s.audioBlob.Some? && UploadedId(upload, s.audioBlob.value).None? ==>
              && r.recordings == s.recordings && r.shareLink == s.shareLink
              && r.currentBlobId == s.currentBlobId && r.hash == s.hash
    ensures s.audioBlob.Some? && StoreBlob(upload, s.audioBlob.value).None? ==>
              r.errorMessage == SAVE_FAILED && r.blockchainData.None? && !r.showBlockchainData
    ensures (s.audioBlob.Some? && upload.UploadResponse? && upload.status == 200 && upload.body.Falsy?) ==>
              r.errorMessage == INVALID_RESPONSE && r.blockchainData.None? && !r.showBlockchainData
    ensures (s.audioBlob.Some? && upload.UploadResponse? && upload.status == 200 && upload.body.Json?) ==>
              r.blockchainData == Some(upload.body.info) && r.showBlockchainData
    ensures (s.audioBlob.Some? && upload.UploadResponse? && upload.status == 200 && upload.body.Json?
             && ResolveBlobId(upload.body.info) == "") ==>
              r.errorMessage == NO_BLOB_ID
    ensures WellFormed(s) ==> WellFormed(r)
  {
    match s.audioBlob
    case None => s
    case Some(blob) =>
      match StoreBlob(upload, blob)
      case None => SaveFailed(s, SAVE_FAILED)
      case Some(Stored(None, _)) => SaveFailed(s, INVALID_RESPONSE)
      case Some(Stored(Some(info), _)) => SaveAnswered(s, info, name, timestamp, blob.mimeType, origin)
  }

  /** A save that ends without a store answer to show: the upload flag and the
      answer panel are cleared and the message is set; nothing else changes. */
  function SaveFailed(s: Session, message: string): (r: Session)
    ensures KeepsSaveFrame(s, r) && !r.uploading
    ensures r.errorMessage == message && r.blockchainData.None? && !r.showBlockchainData
    ensures r.recordings == s.recordings && r.shareLink == s.shareLink
    ensures r.currentBlobId == s.currentBlobId && r.hash == s.hash
  {
    s.(uploading := false, errorMessage := message, blockchainData := None, showBlockchainData := false)
  }

  /** A save the store answered with JSON: show the answer, then either report
      the missing id or prepend the record and open its link. */
  function SaveAnswered(s: Session, info: StoreInfo, name: string, timestamp: string, mediaType: string,
                        origin: string): (r: Session)
    ensures KeepsSaveFrame(s, r) && !r.uploading
    ensures r.blockchainData == Some(info) && r.showBlockchainData
    ensures ResolveBlobId(info) == "" ==>
              && r.errorMessage == NO_BLOB_ID
              && r.recordings == s.recordings && r.shareLink == s.shareLink
              && r.currentBlobId == s.currentBlobId && r.hash == s.hash
    ensures ResolveBlobId(info) != "" ==>
              var id := ResolveBlobId(info);
              && r.recordings == [Recording(id, name, s.recordingTime, timestamp, id, mediaType)] + s.recordings
              && r.currentBlobId == id && r.shareLink == ShareUrl(origin, id) && r.hash == id
              && r.errorMessage == ""
  {
    var shown := s.(uploading := false, errorMessage := "", blockchainData := Some(info), showBlockchainData := true);
    var id := ResolveBlobId(info);
    if id == "" then shown.(errorMessage := NO_BLOB_ID)
    else
      shown.(currentBlobId := id, recordings := [Recording(id, name, s.recordingTime, timestamp, id, mediaType)] + s.recordings,
             shareLink := ShareUrl(origin, id), hash := id)
  }

  // ---------------------------------------------------------------- deleting

  /** The deleted id's first record is the recording open in the page hash. */
  predicate DeletesOpen(s: Session, id: string) {
    var found := FindById(s.recordings, id);
    found.Some? && found.value.blobId == s.hash
  }

  /** `deleteRecording`: drop every record with the id; when the first of them
      is the open recording, also close it and stop playback. Nothing else
      changes. */
  function DeleteRecording(s: Session, id: string): (r: Session)
    ensures r.recordings == RemoveById(s.recordings, id)
    ensures !DeletesOpen(s, id) ==> r == s.(recordings := RemoveById(s.recordings, id))
    ensures DeletesOpen(s, id) ==>
              && r.audioBlob.None? && r.currentBlobId == "" && r.recordingTime == 0
              && r.shareLink == "" && r.blockchainData.None? && !r.showBlockchainData
              && !r.isPlaying && r.hash == ""
              && r.isRecording == s.isRecording && r.errorMessage == s.errorMessage
    ensures DeletesOpen(s, id) ==>
              && r.recorder == s.recorder && r.streamHeld == s.streamHeld && r.timerRunning == s.timerRunning
              && r.chunks == s.chunks && r.isLoadingBlob == s.isLoadingBlob && r.uploading == s.uploading
    ensures WellFormed(s) ==> WellFormed(r)
  {
    var kept := s.(recordings := RemoveById(s.recordings, id));
    if DeletesOpen(s, id) then
      kept.(hash := "", audioBlob := None, currentBlobId := "", recordingTime := 0, shareLink := "",
            blockchainData := None, showBlockchainData := false, isPlaying := false)
    else
      kept
  }

  // ---------------------------------------------------------------- reset

  /** `resetForNewRecording`: stop any recording and playback and clear
      everything about the open recording; the saved list stays. */
  function ResetForNewRecording(s: Session): (r: Session)
    ensures r.audioBlob.None? && r.currentBlobId == "" && r.recordingTime == 0
    ensures r.shareLink == "" && r.errorMessage == "" && r.hash == ""
    ensures r.blockchainData.None? && !r.showBlockchainData && !r.isPlaying
    ensures r.recordings == s.recordings
    ensures WellFormed(s) ==> WellFormed(r) && !r.isRecording && !r.RecorderActive() && !r.timerRunning
    ensures r.chunks == s.chunks && r.isLoadingBlob == s.isLoadingBlob && r.uploading == s.uploading
    ensures !s.isRecording ==> r.recorder == s.recorder && r.streamHeld == s.streamHeld && r.timerRunning == s.timerRunning
  {
    var stopped := if s.isRecording then StopRecording(s) else s;
    stopped.(isPlaying := false, audioBlob := None, currentBlobId := "", recordingTime := 0, shareLink := "",
             errorMessage := "", blockchainData := None, showBlockchainData := false, hash := "")
  }

  // ---------------------------------------------------------------- playback

  /** Where the play button leaves the session: halted in this step, or ready
      for the play attempt. */
  datatype PlayStep = Halted(session: Session) | Proceed(session: Session)

  /** The opening branches of `togglePlayback`: pause when playing; fetch the
      open id when there is no payload yet; report when there is neither. */
  function TogglePlayback(s: Session, fetched: FetchOutcome, measured: Option<nat>, origin: string): (r: PlayStep)
    ensures s.isPlaying ==> r == Halted(s.(isPlaying := false))
    ensures !s.isPlaying && s.audioBlob.None? && s.currentBlobId == "" ==>
              r == Halted(s.(errorMessage := NOTHING_TO_PLAY))
    ensures !s.isPlaying && s.audioBlob.None? && s.currentBlobId != "" ==>
              r.Proceed? && r.session.currentBlobId == s.currentBlobId
              && (r.session.audioBlob.Some? <==> FetchSucceeded(Eager(fetched, measured)))
    ensures !s.isPlaying && s.audioBlob.None? && s.currentBlobId != "" ==>
              r == Proceed(LoadRecording(s, s.currentBlobId, Eager(fetched, measured), origin))
    ensures !s.isPlaying && s.audioBlob.Some? ==> r == Proceed(s)
    ensures WellFormed(s) ==> WellFormed(r.session)
  {
    if s.isPlaying then Halted(s.(isPlaying := false))
    else if s.audioBlob.None? && s.currentBlobId != "" then
      Proceed(LoadRecording(s, s.currentBlobId, Eager(fetched, measured), origin))
    else if s.audioBlob.None? then Halted(s.(errorMessage := NOTHING_TO_PLAY))
    else Proceed(s)
  }

  /** The play attempt after `togglePlayback`'s opening branches: clear the
      message, then either playing, or asked to tap again (autoplay refused). */
  function AttemptPlay(s: Session, started: bool): (r: Session)
    ensures started ==> r.isPlaying && r.errorMessage == ""
    ensures !started ==> r.isPlaying == s.isPlaying && r.errorMessage == TAP_AGAIN
    ensures r.audioBlob == s.audioBlob && r.currentBlobId == s.currentBlobId
    ensures r == s.(isPlaying := r.isPlaying, errorMessage := r.errorMessage)
    ensures WellFormed(s) ==> WellFormed(r)
  {
    var cleared := s.(errorMessage := "");
    if started then cleared.(isPlaying := true) else cleared.(errorMessage := TAP_AGAIN)
  }
}

=== FILE: storage.dfy ===
/**
 The Walrus publisher and aggregator as seen by the recorder: the shape of the
 publisher's JSON answer, the blob-id resolution over it, the status check of a
 store, and the outcome of a fetch. Requests themselves are not modelled; their
 outcomes are inputs.
 */
module Storage {
  import opened Optional

  type Byte = b: int | 0 <= b < 256

  /** An audio payload with its MIME type (a browser `Blob`). */
  datatype Blob = Blob(bytes: seq<Byte>, mimeType: string)

  // The publisher's JSON answer, with every level optional.
  datatype BlobObject = BlobObject(blobId: Option<string>)
  datatype NewlyCreated = NewlyCreated(blobObject: Option<BlobObject>)
  datatype AlreadyCertified = AlreadyCertified(blobId: Option<string>)
  datatype StoreInfo = StoreInfo(newlyCreated: Option<NewlyCreated>, alreadyCertified: Option<AlreadyCertified>)

  /** `info.newlyCreated?.blobObject?.blobId`, with absence read as the empty string. */
  function NewlyCreatedId(info: StoreInfo): string {
    match info.newlyCreated
    case Some(NewlyCreated(Some(BlobObject(Some(id))))) => id
    case _ => ""
  }

  /** `info.alreadyCertified?.blobId`, with absence read as the empty string. */
  function AlreadyCertifiedId(info: StoreInfo): string {
    match info.alreadyCertified
    case Some(AlreadyCertified(Some(id))) => id
    case _ => ""
  }

  /** The blob id of a store answer: a non-empty newly created id wins, then the
      already certified id, else the empty string (JavaScript `||` skips empty
      strings as falsy). */
  function ResolveBlobId(info: StoreInfo): (id: string)
    ensures NewlyCreatedId(info) != "" ==> id == NewlyCreatedId(info)
    ensures NewlyCreatedId(info) == "" ==> id == AlreadyCertifiedId(info)
    ensures id == "" <==> NewlyCreatedId(info) == "" && AlreadyCertifiedId(info) == ""
  {
    if NewlyCreatedId(info) != "" then NewlyCreatedId(info) else AlreadyCertifiedId(info)
  }

  /** The body of a status-200 store answer: not JSON at all, JSON that is falsy
      (`null`, `false`, `0`, `""`), or a JSON value read through `StoreInfo`
      (a value with neither branch reads as `StoreInfo(None, None)`). */
  datatype StoreBody = Unparseable | Falsy | Json(info: StoreInfo)

  /** What the PUT to the publisher produced: a transport failure, or a response. */
  datatype UploadOutcome = UploadThrew | UploadResponse(status: int, body: StoreBody)

  /** What `storeBlob` hands back: the parsed answer (absent when falsy) and the
      stored blob's MIME type. */
  datatype Stored = Stored(info: Option<StoreInfo>, mediaType: string)

  /** `storeBlob`: only status 200 with a parseable body counts as stored; every
      other outcome is the thrown error. */
  function StoreBlob(outcome: UploadOutcome, blob: Blob): (r: Option<Stored>)
    ensures r.Some? <==> outcome.UploadResponse? && outcome.status == 200 && !outcome.body.Unparseable?
    ensures r.Some? ==> r.value.mediaType == blob.mimeType
    ensures r.Some? ==> (r.value.info.Some? <==> outcome.body.Json?)
    ensures r.Some? && r.value.info.Some? ==> r.value.info.value == outcome.body.info
  {
    match outcome
    case UploadThrew => None
    case UploadResponse(status, body) =>
      if status != 200 then None
      else match body
        case Unparseable => None
        case Falsy => Some(Stored(None, blob.mimeType))
        case Json(info) => Some(Stored(Some(info), blob.mimeType))
  }

  /** A publisher answer for freshly stored content. */
  function NewlyCreatedAnswer(id: string): StoreInfo {
    StoreInfo(Some(NewlyCreated(Some(BlobObject(Some(id))))), None)
  }

  /** A publisher answer for content it already holds. */
  function AlreadyCertifiedAnswer(id: string): StoreInfo {
    StoreInfo(None, Some(AlreadyCertified(Some(id))))
  }

  /** The store is content addressed: whichever branch the publisher answers
      with for the same content, the recorder resolves the same id. */
  lemma BothBranchesResolveAlike(id: string)
    ensures ResolveBlobId(NewlyCreatedAnswer(id)) == id
    ensures ResolveBlobId(AlreadyCertifiedAnswer(id)) == id
  {
  }

  /** The body of a successful fetch, or the error reading it threw. */
  datatype FetchBody = BodyThrew(message: string) | Body(bytes: seq<Byte>, declaredType: string)

  /** What the GET from the aggregator produced. */
  datatype FetchOutcome = FetchThrew(message: string) | FetchResponse(status: int, body: FetchBody)

  /** `response.ok`: a status in the 200 range. */
  predicate IsOk(status: int) {
    200 <= status <= 299
  }

  /** The type given to a fetched blob: the declared type, or `audio/mp3` when
      the response declares none. */
  function FetchedBlob(bytes: seq<Byte>, declaredType: string): (b: Blob)
    ensures b.bytes == bytes
    ensures b.mimeType != ""
    ensures declaredType != "" ==> b.mimeType == declaredType
    ensures declaredType == "" ==> b.mimeType == "audio/mp3"
  {
    Blob(bytes, if declaredType == "" then "audio/mp3" else declaredType)
  }
}
